=== FILE: README.md ===
# Wander dashboard: a Dafny model of its data pipeline

The office dashboard polls two public APIs and shows the results. The first is the Aare
river temperature, shown on the main page (`src/App.tsx`) and on a card
(`src/components/card/RiverTemparature.tsx`). The second is a public-transport departure
board (`src/components/card/PublicTransport.tsx`). Under the markup sits a small piece of
pure logic, and this project models it in Dafny and proves properties about it:

- **River payload normalizer** (`parseAareData`). An untyped JSON payload becomes
  `{temperature?, location?, timestamp?}`. The temperature, time and location are each
  read from the first alias key whose value is not null or undefined. For the temperature
  and the time, a value of the wrong type, a non-finite temperature and an invalid instant
  each give an absent field. The location keeps whatever value it finds.
- **Mood mapper** (`temperatureMood`). A total map from an optional temperature to one of
  five label/colour/glow triples, using upper-exclusive bands at 14, 18 and 22 °C.
- **River widget** (`fetchAare`). A completion is a transition on `(data, error)`, guarded
  by the effect's `active` flag. The card's display fallbacks are modelled too.
- **Transit normalizer**. This covers the configured station query, the three-tier station
  selection, `parseDeparture` (the live prognosis wins over the schedule), the ordered map
  over the stationboard, and the countdown text `minutesUntil`.
- **Transit widget** (`fetchDepartures`). The start of a poll, its completion and teardown
  act on `(stationName, departures, error, isLoading, lastUpdate)`.

`src/App.tsx:41-119` and `src/components/card/RiverTemparature.tsx:35-113` hold the same
normalizer and mapper. They are identical apart from the mapper's return-type annotation
in the card (`: TemperatureMood`). Their two `fetchAare` bodies are also
identical. The model defines each once, and the table cites lines from both files.

Modules (one file each): `Wrappers` (Option, Result); `JsValues` (numbers with NaN and
infinities, JSON values, `?.`, `??`, `find`, caught errors, the two library parsers);
`JsTime` (ECMAScript's TimeClip, `Math.round` of a millisecond difference in minutes);
`JsText` (`String.prototype.trim`, decimal text of an integer); `Network` (what a `fetch`
delivers); `Aare`; `Mood`; `RiverWidget`; `Transit`; `TransitWidget`.

How the library primitives appear in the model:

- `Number.parseFloat` and `Date.parse` (the string form of `new Date(s)`) are abstract. They
  are the two function-valued fields of `JsValues.Primitives`, from strings to numbers that
  may be NaN or infinite.
- `new Date(x)` is TimeClip. A finite value within ±8.64e15 ms is truncated toward zero.
  Any other value is the invalid date, which the model writes as `None`.
- `Math.round(d / 60000)` for an integer `d` is computed exactly as `(d + 30000) / 60000`
  with floor division.
- The network is an input. A completion is a response value: either the promise rejects,
  or a response arrives with its `ok` flag and a body that decodes or does not. The transit
  endpoints are functions from request to response, so the model fixes which request is sent.
- The clock is an input: the instant `new Date()` gives at a completion is a parameter.

Details of the code's behaviour that the model keeps:

- "First present key" means the first key whose value is neither null nor undefined. A key
  that holds `null` is skipped, not chosen.
- A time string falls back to generic date parsing when `parseFloat(s) * 1000` is NaN **or
  zero**. A string that parses to `Infinity` does not fall back. It gives an invalid date,
  so the timestamp is absent.
- A transit failure clears the departure list (`setDepartures([])`). It does not keep the
  previous data. It keeps only the station name and the last-update time.
- The location is whatever non-nullish value the payload holds under a location alias. The
  code never checks that it is a string.

## Model

| member | source | states |
|---|---|---|
| JsValues.FindFirst | src/components/card/PublicTransport.tsx:111-115 | `find` yields the least index whose element satisfies the predicate; it yields none exactly when no element does |
| JsValues.ChainIsFirstPresent | src/App.tsx:43-51 | the left-nested (`JsValues.LeftChain`) `a ?? b ?? … ?? undefined` chain, as written, equals the value of the first alias that is neither null nor undefined |
| JsValues.FirstPresentKey | src/components/card/RiverTemparature.tsx:37-45 | the chosen alias is the least index with a non-nullish value; every earlier alias is null or undefined; none is chosen only when all are |
| JsValues.Coalesce | src/components/card/RiverTemparature.tsx:47-52 | the alias chain is undefined exactly when every alias is null or undefined, and a chosen value is never null |
| JsValues.CaughtMessage | src/components/card/PublicTransport.tsx:142 | the `catch` clause shows the message of a thrown `Error` and the fixed fallback for any other thrown value (also src/App.tsx:148 and src/components/card/RiverTemparature.tsx:136) |
| JsValues.CoalesceIgnoresLaterKeys | src/App.tsx:53-58 | two payloads that agree on the aliases up to and including the chosen one yield the same value, whatever the later aliases hold |
| JsTime.TimeClip | src/App.tsx:67-77 | a `Date` is valid exactly when its number is finite and within ±8.64e15 ms; its time value is that number truncated toward zero |
| JsTime.SecondsToMillis | src/components/card/RiverTemparature.tsx:63-65 | `x * 1000` keeps finiteness, multiplies finite values by 1000, and is falsy (NaN or zero) exactly when `x` is |
| JsTime.RoundedMinutes | src/components/card/PublicTransport.tsx:73 | `Math.round(d / 60000)` is the integer m with m·60000 − 30000 ≤ d < m·60000 + 30000 |
| JsText.Trim | src/components/card/PublicTransport.tsx:3 | `trim` returns an infix of its input with only whitespace cut away at both ends; the result starts and ends with non-whitespace; it is empty exactly when the input is all whitespace |
| JsText.TrimIdempotent | src/components/card/PublicTransport.tsx:3 | trimming an already trimmed query changes nothing |
| JsText.DecimalString | src/components/card/PublicTransport.tsx:77 | `${n}` is a non-empty string of decimal digits with no leading zero unless n is 0 |
| JsText.DecimalRoundTrip | src/components/card/PublicTransport.tsx:77 | reading the decimal text of n back gives n |
| Network.Receive | src/App.tsx:136-140 | a payload is delivered only for an ok response with a decodable body; a non-ok status throws an Error with the given message; a rejection or a decoding failure passes on what was thrown |
| Aare.TemperatureOf | src/App.tsx:60-75 | the temperature is present exactly when the chosen value is a finite number, or a string that `parseFloat` turns into a finite number, and then it equals that number; NaN, infinities, booleans, arrays and objects give an absent temperature |
| Aare.TimestampOf | src/App.tsx:67-77 | a timestamp comes only from a number or a string; a number is epoch seconds; a string is epoch seconds unless `parseFloat · 1000` is NaN or 0, and then it is parsed as a date; an invalid date is absent |
| Aare.LocationOf | src/App.tsx:76 | the location is the first non-nullish of `longname`, `name`, `location`, else "Aare · Bern"; it is never null |
| Aare.ParseAareData | src/components/card/RiverTemparature.tsx:35-73 | the record's temperature, timestamp and location are exactly the fields `Aare.TemperatureOf`, `Aare.TimestampOf` and `Aare.LocationOf` describe; it always has a non-null location, so it never equals the empty record; temperature and timestamp exist only when an alias supplied them |
| Aare.TemperatureIgnoresLaterAliases | src/components/card/RiverTemparature.tsx:37-45 | once a temperature alias is non-nullish, it decides the temperature even if unparseable, and later aliases cannot change the result |
| Aare.UnusableFirstAliasHidesOthers | src/components/card/RiverTemparature.tsx:54-69 | a present `aare` value that is not, and does not parse to, a finite number gives an absent temperature, whatever the other aliases hold |
| Aare.NumericTimeIsEpochSeconds | src/components/card/RiverTemparature.tsx:61-63 | a numeric time x yields a timestamp exactly when x·1000 is within the `Date` range, and then it is x·1000 truncated |
| Aare.InfiniteTimeStringHasNoTimestamp | src/components/card/RiverTemparature.tsx:64-71 | a time string that parses to an infinity is not re-parsed as a date and yields no timestamp |
| Aare.SamplePayload | src/App.tsx:41-79 | `{aare: "18.3", time: "1700000000"}` normalizes to 18.3 °C at 1700000000000 ms in "Aare · Bern" |
| Mood.TemperatureMood | src/App.tsx:81-119 | the mapper is total and returns one of the five moods: loading exactly for no reading; "Frisch" below 14; "Klar & angenehm" in [14,18); "Perfekt" in [18,22); "Sommerfeeling" from 22 |
| Mood.MoodIsBand | src/components/card/RiverTemparature.tsx:75-113 | the branch chain picks the mood whose index is 0 without a reading, else 1 plus the number of thresholds 14, 18, 22 reached |
| Mood.ReachedMonotone | src/components/card/RiverTemparature.tsx:84-106 | a warmer reading reaches at least as many thresholds |
| Mood.BandMonotone | src/App.tsx:90-118 | the mood band never decreases as the temperature rises, and every reading is above the loading band |
| Mood.LabelsDistinct | src/App.tsx:81-119 | the five moods have pairwise different labels |
| RiverWidget.FetchAare | src/App.tsx:134-151 | a fetch yields the parsed payload exactly when the response is ok and decodes; a non-ok status yields "Aare API antwortet nicht"; a rejection, or an ok response whose body does not decode, yields the thrown Error's message or "Datenfehler" |
| RiverWidget.Complete | src/App.tsx:141-150 | while active, a success replaces the data wholesale, and the error is "Keine Temperaturdaten" exactly when the parse has no temperature; a failure sets the error and keeps the data; while inactive, nothing changes |
| RiverWidget.Step | src/components/card/RiverTemparature.tsx:122-147 | teardown only clears `active`; once inactive, no event changes the state |
| RiverWidget.RejectionSetsErrorKeepsData | src/components/card/RiverTemparature.tsx:134-137 | a rejected fetch while active keeps the data shown so far and sets the error to the thrown Error's message, or "Datenfehler" |
| RiverWidget.DecodedPayloadReplacesData | src/components/card/RiverTemparature.tsx:128-133 | a decoded payload while active replaces the data with its parse, and the error is "Keine Temperaturdaten" exactly when the parse has no temperature |
| RiverWidget.TornDownIsFrozen | src/App.tsx:156-159 | after teardown, any sequence of completions leaves the whole state unchanged |
| RiverWidget.StepKeepsConsistent | src/components/card/RiverTemparature.tsx:129-138 | each event keeps the invariant: the data is empty or fully parsed with a non-null location, and no error means a temperature is shown or nothing has loaded yet |
| RiverWidget.RunKeepsConsistent | src/components/card/RiverTemparature.tsx:125-138 | any sequence of events keeps that invariant |
| RiverWidget.ReachableIsConsistent | src/App.tsx:131-160 | every state reachable from mounting satisfies the invariant |
| RiverWidget.View | src/components/card/RiverTemparature.tsx:150-172 | the shown temperature is the reading, or "--" exactly when it is absent; the location is the parsed one when not null or undefined, else "Aare · Bern", and never null; the update line shows the timestamp, or "gleich" exactly without one; the mood follows the temperature; an error line appears exactly for a non-empty error |
| RiverWidget.ServerErrorShowsPlaceholder | src/App.tsx:137-148 | a non-ok first response leaves "--", the loading mood and the non-empty error "Aare API antwortet nicht" |
| RiverWidget.SampleFetchShowsReading | src/App.tsx:214-226 | the sample payload shows 18.3 °C, the "Perfekt" mood, its instant, and no error |
| Transit.StationQuery | src/components/card/PublicTransport.tsx:3 | the query is the trimmed configured text, or "Bern" when that is unset or blank; it is never empty and never begins or ends with whitespace |
| Transit.DepartureTime | src/components/card/PublicTransport.tsx:58-63 | a departure time exists only for a non-empty raw string, and it is that string parsed as a valid date |
| Transit.DepartureRaw | src/components/card/PublicTransport.tsx:57 | the raw departure text is the prognosis time when present, else the scheduled time; it is missing only when both are |
| Transit.ParseDeparture | src/components/card/PublicTransport.tsx:56-66 | line is number ?? name ?? "?"; destination is to ?? "Unbekannt"; time and platform come from the prognosis when present, else from the schedule (a schedule-only platform is the one shown); the platform is null only when both are missing |
| Transit.PrognosisOverridesSchedule | src/components/card/PublicTransport.tsx:57-64 | when the prognosis gives both a time and a platform, the scheduled values have no influence |
| Transit.ParseAll | src/components/card/PublicTransport.tsx:132 | the map keeps length and order: the i-th departure is the parse of the i-th entry |
| Transit.ParseDepartures | src/components/card/PublicTransport.tsx:131-132 | a missing stationboard gives an empty list; otherwise the list is the element-wise parse, in order |
| Transit.ParseAllKeepsOrder | src/components/card/PublicTransport.tsx:132 | parsing a concatenation gives the concatenation of the parses |
| Transit.SelectedIndex | src/components/card/PublicTransport.tsx:110-115 | the choice is the first candidate with a truthy id (`Transit.HasTruthyId`, line 111) if any; else the first with numeric x and y (`Transit.HasNumericCoordinates`, line 113); else the first candidate; no choice only when there is no candidate |
| Transit.SelectStation | src/components/card/PublicTransport.tsx:110-115 | a station is selected exactly when the list is present and non-empty, and it is the candidate at the chosen index |
| Transit.FirstIdWins | src/components/card/PublicTransport.tsx:111 | the first candidate with a truthy id is chosen even when id-less candidates come before it |
| Transit.ResolveStation | src/components/card/PublicTransport.tsx:110-119 | the poll continues exactly when a station is selected and its name is truthy; otherwise it fails with the error that names the query |
| Transit.StationboardKey | src/components/card/PublicTransport.tsx:121 | the stationboard is requested by the station's id whenever it has one, even an empty one, since `??` keeps ""; by its name only when it has no id |
| Transit.BoardOf | src/components/card/PublicTransport.tsx:131-135 | the station name is the stationboard's own station name when present, else the selected station's name; the departures are the parsed stationboard |
| Transit.FetchDepartures | src/components/card/PublicTransport.tsx:96-144 | a non-ok locations response fails with "ÖV-Station konnte nicht geladen werden"; a rejection fails with its message; a success needs an ok, decodable locations response with a resolvable station and an ok, decodable stationboard response for that station's key and limit 6, and it is that stationboard's board; an unresolvable station fails with the message naming the query; a non-ok stationboard fails with "ÖV-Verbindungen konnten nicht geladen werden"; a rejection or an undecodable body at either stage fails with the Error's message or "ÖV-Datenfehler" |
| Transit.FetchDeliversBoard | src/components/card/PublicTransport.tsx:121-132 | when the station resolves and its stationboard request (limit 6) succeeds, the poll delivers that board: the stationboard's station name, else the resolved station's, and its departures in order |
| Transit.BoardFailureIsAnError | src/components/card/PublicTransport.tsx:127-129 | a non-ok stationboard response fails with "ÖV-Verbindungen konnten nicht geladen werden" |
| Transit.NoStationIsAnError | src/components/card/PublicTransport.tsx:117-119 | no candidate, or a chosen candidate without a name, fails with `Keine Station für "<query>" gefunden` |
| Transit.MinutesUntil | src/components/card/PublicTransport.tsx:68-78 | "--" exactly without a departure; "jetzt" exactly when the departure is less than half a minute ahead (rounded minutes ≤ 0); otherwise "in N min" with N ≥ 1 the rounded minutes |
| Transit.CountdownReadsBack | src/components/card/PublicTransport.tsx:73-77 | the text between "in " and " min" is all digits and reads back as the rounded minute count, at least 1 |
| TransitWidget.Mounted | src/components/card/PublicTransport.tsx:81-85 | the initial state shows the query as the title, is loading, and has no departures, error or update time |
| TransitWidget.Start | src/components/card/PublicTransport.tsx:97 | starting a poll sets only `isLoading`; a torn-down widget starts no poll |
| TransitWidget.Complete | src/components/card/PublicTransport.tsx:134-149 | while active, a success sets the station name and departures, stamps `lastUpdate`, and the error is "Keine aktuellen Abfahrten" exactly when the list is empty; a failure sets the error and clears the departures but keeps the name and `lastUpdate`; loading ends either way; while inactive, nothing changes |
| TransitWidget.Step | src/components/card/PublicTransport.tsx:96-158 | teardown only clears `active`; once inactive, no event changes the state |
| TransitWidget.StartSetsLoading | src/components/card/PublicTransport.tsx:97 | a poll started while active sets only `isLoading` |
| TransitWidget.SuccessfulPollShowsBoard | src/components/card/PublicTransport.tsx:121-149 | a poll whose station resolves and whose stationboard request succeeds shows that board's station name and departures, stamps `lastUpdate` with the completion instant, shows an error exactly for an empty list, and ends loading |
| TransitWidget.StationFailureKeepsName | src/components/card/PublicTransport.tsx:105-107 | a non-ok locations response while active shows "ÖV-Station konnte nicht geladen werden", clears the departures, keeps the title and `lastUpdate`, and ends loading |
| TransitWidget.BoardFailureShowsError | src/components/card/PublicTransport.tsx:127-129 | a non-ok stationboard response while active shows "ÖV-Verbindungen konnten nicht geladen werden", clears the departures and ends loading |
| TransitWidget.TornDownIsFrozen | src/components/card/PublicTransport.tsx:155-158 | after teardown, any sequence of events leaves the whole state unchanged |
| TransitWidget.StepKeepsConsistent | src/components/card/PublicTransport.tsx:140-144 | each event keeps the invariant: before the first success the title is the query with no departures, and an empty list with no error occurs only then |
| TransitWidget.RunKeepsConsistent | src/components/card/PublicTransport.tsx:134-149 | any sequence of events keeps that invariant |
| TransitWidget.ReachableIsConsistent | src/components/card/PublicTransport.tsx:81-85 | every state reachable from mounting satisfies the invariant |

## Left out

- Network I/O is not modelled: `fetch`, the endpoint URLs, `encodeURIComponent`, the `cache: "no-store"` option and JSON decoding. A response is an input value, and each transit endpoint is a function from request to response.
- Timers are not modelled: the 5-minute and 60-second polling intervals, the 1-second clock and the 30-second `now` ticker. Only single completions and the `active` flag are modelled.
- Overlapping in-flight polls are not modelled. Responses to overlapping polls apply in completion order, and the model treats each completion on its own.
- React is not modelled: hooks, `useMemo`, JSX, row keys, and the transit row texts ("Gleis --", "--:--"). These are rendering.
- `Intl.NumberFormat` and `Intl.DateTimeFormat` output is not modelled, because it depends on locale data. The river view records which value would be formatted.
- The internals of `Number.parseFloat` and `Date.parse` are abstract, because they involve string-to-double conversion.
- Double rounding is not modelled, because numbers are exact reals. This affects `x * 1000` and `d / 60000`, including `x * 1000` overflowing to infinity. Overflow happens only far outside the `Date` range, where both forms give an invalid date.
- Transit payloads follow their declared TypeScript shapes. A payload that breaks them is not modelled: a non-object body, a `null` array element, or a field of the wrong type. In the source these would throw a TypeError into the `catch` clause, or carry non-string values. The unused `type` field of a station is dropped.
- `${n}` in exponent form (n ≥ 1e21) is not modelled. It cannot occur, because both instants are valid `Date` values, so n < 3e11.
- `src/components/DogToggle.tsx`, `src/components/card/Accelerit.tsx`, `src/components/card/Rentshop.tsx` and `tailwind.config.cjs` are not part of this model. They hold only markup, animation and styling.

=== FILE: aare.dfy ===
/**
 * The river payload normalizer (`parseAareData`): an untyped JSON payload from the Aare
 * temperature API becomes `{temperature?, location?, timestamp?}`. Each field is probed
 * over a fixed, ordered list of alias keys; values of the wrong type, non-finite
 * temperatures and invalid instants degrade to an absent field. The normalizer is total:
 * no payload makes it fail.
 */
module Aare {
  import opened Wrappers
  import opened JsValues
  import opened JsTime

  /** Temperature aliases, most preferred first. */
  const TemperatureKeys: seq<string> :=
    ["aare", "aare_prec", "temperature", "aareTemperature", "aare_temperature",
     "temperature_precise", "aare_temperature_precise"]

  /** Timestamp aliases, most preferred first. */
  const TimeKeys: seq<string> := ["time", "timestamp", "updated", "updated_at"]

  /** Display-name aliases, most preferred first. */
  const LocationKeys: seq<string> := ["longname", "name", "location"]

  const DefaultLocation: string := "Aare · Bern"

  /**
   * The normalized reading. `location` holds whatever non-nullish value the payload carried
   * under a location alias: the source does not check that it is a string.
   */
  datatype AareData = AareData(temperature: Option<real>, location: Option<Json>, timestamp: Option<TimeValue>)

  /** `{}`: the record before any fetch has succeeded. */
  const NoData: AareData := AareData(None, None, None)

  /** `typeof v === "number" ? v : typeof v === "string" ? Number.parseFloat(v) : undefined` */
  function NumberOrParsed(prims: Primitives, v: Option<Json>): Option<Num> {
    match v
    case Some(JNum(n)) => Some(n)
    case Some(JStr(s)) => Some(prims.parseFloat(s))
    case _ => None
  }

  /** The value selected for the temperature: the first present temperature alias. */
  function TemperatureSource(p: Json): Option<Json> {
    Coalesce(p, TemperatureKeys)
  }

  /**
   * The temperature: present exactly when the selected value is a finite number, or a string
   * that parses to a finite number, and then equal to that number.
   */
  function TemperatureOf(prims: Primitives, p: Json): (t: Option<real>)
    ensures var c := TemperatureSource(p);
      t.Some? <==> c.Some? && ((c.value.JNum? && IsFinite(c.value.n)) ||
                               (c.value.JStr? && IsFinite(prims.parseFloat(c.value.s))))
    ensures var c := TemperatureSource(p);
      t.Some? ==> (c.value.JNum? && c.value.n == Finite(t.value)) ||
                  (c.value.JStr? && prims.parseFloat(c.value.s) == Finite(t.value))
  {
    match NumberOrParsed(prims, TemperatureSource(p))
    case Some(Finite(x)) => Some(x)
    case _ => None
  }

  /** The value selected for the timestamp: the first present time alias. */
  function TimeSource(p: Json): Option<Json> {
    Coalesce(p, TimeKeys)
  }

  /**
   * The timestamp: a number is epoch seconds; a string is epoch seconds unless
   * `parseFloat(s) * 1000` is NaN or zero (`|| timeRaw`), in which case it is parsed as a
   * date; anything else, or an invalid instant, gives no timestamp.
   */
  function TimestampOf(prims: Primitives, p: Json): (r: Option<TimeValue>)
    ensures r.Some? ==> TimeSource(p).Some? && (TimeSource(p).value.JNum? || TimeSource(p).value.JStr?)
    ensures var c := TimeSource(p);
      c.Some? && c.value.JNum? ==> r == TimeClip(SecondsToMillis(c.value.n))
    ensures var c := TimeSource(p);
      c.Some? && c.value.JStr? && !IsFalsyNum(prims.parseFloat(c.value.s)) ==>
        r == TimeClip(SecondsToMillis(prims.parseFloat(c.value.s)))
    ensures var c := TimeSource(p);
      c.Some? && c.value.JStr? && IsFalsyNum(prims.parseFloat(c.value.s)) ==>
        r == TimeClip(prims.dateParse(c.value.s))
  {
    match TimeSource(p)
    case Some(JNum(n)) => TimeClip(SecondsToMillis(n))
    case Some(JStr(s)) =>
      var millis := SecondsToMillis(prims.parseFloat(s));
      if IsFalsyNum(millis) then TimeClip(prims.dateParse(s)) else TimeClip(millis)
    case _ => None
  }

  /** The location: the first present location alias, else the fixed fallback; never nullish. */
  function LocationOf(p: Json): (l: Json)
    ensures l != JNull
    ensures Coalesce(p, LocationKeys).Some? ==> l == Coalesce(p, LocationKeys).value
    ensures Coalesce(p, LocationKeys).None? ==> l == JStr(DefaultLocation)
  {
    Coalesce(p, LocationKeys).GetOr(JStr(DefaultLocation))
  }

  /**
   * `parseAareData`: the record of the three independently normalized fields; it always
   * carries a non-nullish location.
   */
  function ParseAareData(prims: Primitives, p: Json): (d: AareData)
    ensures d.location.Some? && d.location.value != JNull
    ensures d != NoData
    ensures d.temperature == TemperatureOf(prims, p)
    ensures d.timestamp == TimestampOf(prims, p)
    ensures d.location == Some(LocationOf(p))
  {
    AareData(TemperatureOf(prims, p), Some(LocationOf(p)), TimestampOf(prims, p))
  }

  /**
   * First alias wins: once a temperature alias is present, whatever it holds (even a value
   * that does not parse) decides the temperature, and the aliases after it are ignored.
   */
  lemma TemperatureIgnoresLaterAliases(prims: Primitives, p: Json, q: Json, i: nat)
    requires i < |TemperatureKeys| && !Nullish(Get(p, TemperatureKeys[i]))
    requires forall j :: 0 <= j < i ==> Nullish(Get(p, TemperatureKeys[j]))
    requires forall j :: 0 <= j <= i ==> Get(q, TemperatureKeys[j]) == Get(p, TemperatureKeys[j])
    ensures TemperatureSource(q) == TemperatureSource(p) == Get(p, TemperatureKeys[i])
    ensures TemperatureOf(prims, q) == TemperatureOf(prims, p)
  {
  }

  /**
   * A present `aare` value that is not a finite number and does not parse to one gives no
   * temperature, whatever valid readings the other aliases hold.
   */
  lemma UnusableFirstAliasHidesOthers(prims: Primitives, p: Json)
    requires !Nullish(Get(p, "aare"))
    requires !(Get(p, "aare").value.JNum? && IsFinite(Get(p, "aare").value.n))
    requires !(Get(p, "aare").value.JStr? && IsFinite(prims.parseFloat(Get(p, "aare").value.s)))
    ensures TemperatureOf(prims, p).None?
  {
  }

  /**
   * A numeric time alias is epoch seconds: within the `Date` range it becomes those seconds
   * in milliseconds, truncated toward zero; outside it the timestamp is absent.
   */
  lemma NumericTimeIsEpochSeconds(prims: Primitives, p: Json, x: real)
    requires TimeSource(p) == Some(JNum(Finite(x)))
    ensures TimestampOf(prims, p).Some? <==> -MaxTime as real <= x * 1000.0 <= MaxTime as real
    ensures TimestampOf(prims, p).Some? ==> TimestampOf(prims, p).value == Trunc(x * 1000.0)
  {
  }

  /**
   * A string that parses to `Infinity` is truthy after `* 1000`, so it is not re-parsed as a
   * date: it yields an invalid `Date` and no timestamp.
   */
  lemma InfiniteTimeStringHasNoTimestamp(prims: Primitives, p: Json)
    requires TimeSource(p).Some? && TimeSource(p).value.JStr?
    requires prims.parseFloat(TimeSource(p).value.s).Infinity?
    ensures TimestampOf(prims, p).None?
  {
  }

  /**
   * The payload `{ aare: "18.3", time: "1700000000" }`, with the parses `parseFloat` gives
   * for those strings, reads as 18.3 degrees observed at 1700000000000 ms.
   */
  lemma SamplePayload(prims: Primitives)
    requires prims.parseFloat("18.3") == Finite(18.3)
    requires prims.parseFloat("1700000000") == Finite(1700000000.0)
    ensures var p := JObj(map["aare" := JStr("18.3"), "time" := JStr("1700000000")]);
      ParseAareData(prims, p) == AareData(Some(18.3), Some(JStr(DefaultLocation)), Some(1_700_000_000_000))
  {
  }
}

=== FILE: js_text.dfy ===
/**
 * Two string operations of the JavaScript library used by the transit widget:
 * `String.prototype.trim` and the decimal text of a positive integer
 * (`${n}` in a template literal).
 */
module JsText {

  /**
   * The characters `trim` removes: ECMAScript's WhiteSpace (TAB, VT, FF, ZWNBSP and the
   * Unicode space separators) and LineTerminator (LF, CR, LS, PS) code points.
   */
  predicate IsWhitespace(c: char) {
    c in {'\U{0009}', '\U{000B}', '\U{000C}', '\U{FEFF}', '\U{0020}', '\U{00A0}',
          '\U{1680}', '\U{2000}', '\U{2001}', '\U{2002}', '\U{2003}', '\U{2004}',
          '\U{2005}', '\U{2006}', '\U{2007}', '\U{2008}', '\U{2009}', '\U{200A}',
          '\U{202F}', '\U{205F}', '\U{3000}', '\U{000A}', '\U{000D}', '\U{2028}',
          '\U{2029}'}
  }

  /** The number of leading whitespace characters. */
  function TrimStartIndex(s: string): (i: nat)
    ensures i <= |s|
    ensures forall k :: 0 <= k < i ==> IsWhitespace(s[k])
    ensures i < |s| ==> !IsWhitespace(s[i])
  {
    if |s| == 0 || !IsWhitespace(s[0]) then 0 else 1 + TrimStartIndex(s[1..])
  }

  /** The length of `s` without its trailing whitespace. */
  function TrimEndIndex(s: string): (j: nat)
    ensures j <= |s|
    ensures forall k :: j <= k < |s| ==> IsWhitespace(s[k])
    ensures 0 < j ==> !IsWhitespace(s[j - 1])
  {
    if |s| == 0 || !IsWhitespace(s[|s| - 1]) then |s| else TrimEndIndex(s[..|s| - 1])
  }

  predicate AllWhitespace(s: string) {
    forall k :: 0 <= k < |s| ==> IsWhitespace(s[k])
  }

  /** `s.trim()`: the infix of `s` left after removing whitespace at both ends. */
  function Trim(s: string): (r: string)
    ensures r == [] <==> AllWhitespace(s)
    ensures r != [] ==> !IsWhitespace(r[0]) && !IsWhitespace(r[|r| - 1])
    ensures exists i :: 0 <= i <= |s| - |r| && r == s[i..i + |r|] &&
                        AllWhitespace(s[..i]) && AllWhitespace(s[i + |r|..])
  {
    var i := TrimStartIndex(s);
    var j := TrimEndIndex(s);
    if j <= i then
      assert AllWhitespace(s[..0]) && AllWhitespace(s[0..]) by {
        forall k | 0 <= k < |s| ensures IsWhitespace(s[k]) {
          if i <= k {
            assert j <= k;
          }
        }
      }
      []
    else
      assert !AllWhitespace(s) by {
        assert !IsWhitespace(s[i]);
      }
      assert AllWhitespace(s[..i]) && AllWhitespace(s[j..]) by {
        assert forall k :: 0 <= k < i ==> s[..i][k] == s[k];
        assert forall k :: 0 <= k < |s| - j ==> s[j..][k] == s[j + k];
      }
      s[i..j]
  }

  /** Trimming is idempotent: a trimmed string has nothing left to trim. */
  lemma TrimIdempotent(s: string)
    ensures Trim(Trim(s)) == Trim(s)
  {
  }

  /** The digit character for `d`. */
  function DigitChar(d: nat): char
    requires d < 10
  {
    "0123456789"[d]
  }

  predicate IsDigit(c: char) {
    '0' <= c <= '9'
  }

  /** The numeric value of a decimal digit character. */
  function DigitValue(c: char): nat
    requires IsDigit(c)
  {
    (c as int - '0' as int) as nat
  }

  /** The decimal text of a natural number, as JavaScript writes an integer below 1e21. */
  function DecimalString(n: nat): (s: string)
    ensures 1 <= |s|
    ensures forall k :: 0 <= k < |s| ==> IsDigit(s[k])
    ensures s[0] == '0' ==> n == 0
  {
    if n < 10 then [DigitChar(n)] else DecimalString(n / 10) + [DigitChar(n % 10)]
  }

  /** The value of a string of decimal digits, most significant first. */
  function DecimalValue(s: string): nat
    requires forall k :: 0 <= k < |s| ==> IsDigit(s[k])
  {
    if |s| == 0 then 0 else 10 * DecimalValue(s[..|s| - 1]) + DigitValue(s[|s| - 1])
  }

  /** Reading back the decimal text of `n` gives `n`. */
  lemma {:induction false} DecimalRoundTrip(n: nat)
    ensures DecimalValue(DecimalString(n)) == n
  {
    if n >= 10 {
      var s := DecimalString(n);
      assert s[..|s| - 1] == DecimalString(n / 10);
      DecimalRoundTrip(n / 10);
    }
  }
}

=== FILE: js_time.dfy ===
/**
 * Time values as `Date` objects hold them: integral milliseconds since the epoch within
 * plus or minus 8.64e15, produced by ECMAScript's TimeClip; and `Math.round` of a
 * millisecond difference expressed in minutes.
 */
module JsTime {
  import opened Wrappers
  import opened JsValues

  /** The largest magnitude a valid `Date` may hold: 100,000,000 days in milliseconds. */
  const MaxTime: int := 8_640_000_000_000_000

  /** The time value of a valid `Date` (`getTime()` is not NaN). */
  type TimeValue = t: int | -MaxTime <= t <= MaxTime

  /** Truncation toward zero (ToIntegerOrInfinity on a finite value). */
  function Trunc(x: real): (r: int)
    ensures 0.0 <= x ==> r as real <= x < r as real + 1.0
    ensures x < 0.0 ==> r as real - 1.0 < x <= r as real
  {
    if 0.0 <= x then x.Floor else -((-x).Floor)
  }

  /**
   * TimeClip: what `new Date(n)` keeps of a number. None stands for the invalid date
   * (`getTime()` is NaN): NaN, an infinity, or a finite value beyond MaxTime.
   */
  function TimeClip(n: Num): (r: Option<TimeValue>)
    ensures r.Some? <==> n.Finite? && -MaxTime as real <= n.value <= MaxTime as real
    ensures r.Some? ==> 0.0 <= n.value ==> 0 <= r.value && r.value as real <= n.value < r.value as real + 1.0
    ensures r.Some? ==> n.value < 0.0 ==> r.value <= 0 && r.value as real - 1.0 < n.value <= r.value as real
  {
    match n
    case Finite(x) =>
      if -MaxTime as real <= x <= MaxTime as real then Some(Trunc(x)) else None
    case _ => None
  }

  /** `seconds * 1000` on a double; the sign of an infinity is kept and NaN stays NaN. */
  function SecondsToMillis(seconds: Num): (r: Num)
    ensures r.Finite? <==> seconds.Finite?
    ensures seconds.Finite? ==> r.value == seconds.value * 1000.0
    ensures IsFalsyNum(r) <==> IsFalsyNum(seconds)
  {
    match seconds
    case Finite(x) => Finite(x * 1000.0)
    case NaN => NaN
    case Infinity(neg) => Infinity(neg)
  }

  const MillisPerMinute: int := 60_000

  /**
   * `Math.round(d / 60000)` for an integral millisecond difference `d`: the integer nearest
   * to `d / 60000`, a tie going toward positive infinity.
   */
  function RoundedMinutes(d: int): (m: int)
    ensures m * MillisPerMinute - MillisPerMinute / 2 <= d < m * MillisPerMinute + MillisPerMinute / 2
  {
    (d + MillisPerMinute / 2) / MillisPerMinute
  }

  /** The nearest-integer property pins the rounding down: no other integer satisfies it. */
  lemma RoundedMinutesUnique(d: int, m: int)
    requires m * MillisPerMinute - MillisPerMinute / 2 <= d < m * MillisPerMinute + MillisPerMinute / 2
    ensures m == RoundedMinutes(d)
  {
  }
}

=== FILE: js_values.dfy ===
/**
 * The slice of JavaScript value semantics the dashboard relies on: numbers with NaN and
 * infinities, untyped JSON values, optional property reads (`v?.key`), the nullish
 * coalescing operator `??`, `Array.prototype.find`, and the `catch` clause's
 * `err instanceof Error ? err.message : fallback`.
 */
module JsValues {
  import opened Wrappers

  /** An IEEE-754 double as far as the model needs it: a finite value (an exact real), NaN or an infinity. */
  datatype Num = Finite(value: real) | NaN | Infinity(negative: bool)

  /** Number.isFinite */
  predicate IsFinite(n: Num) {
    n.Finite?
  }

  /** A number used as a condition (`x || y`) is false exactly for NaN and for (signed) zero. */
  predicate IsFalsyNum(n: Num) {
    n.NaN? || n == Finite(0.0)
  }

  /** A JSON value as `response.json()` produces it, typed `unknown` by the source. */
  datatype Json =
    | JNull
    | JBool(b: bool)
    | JNum(n: Num)
    | JStr(s: string)
    | JArr(items: seq<Json>)
    | JObj(fields: map<string, Json>)

  /** `v?.[key]`: the property when `v` is an object that has it, `undefined` (None) otherwise. */
  function Get(v: Json, key: string): Option<Json> {
    if v.JObj? && key in v.fields then Some(v.fields[key]) else None
  }

  /** `null` or `undefined`: the two values `??` skips. */
  predicate Nullish(v: Option<Json>) {
    v.None? || v.value.JNull?
  }

  /** The binary operator `a ?? b`. */
  function NullishOr(a: Option<Json>, b: Option<Json>): Option<Json> {
    if Nullish(a) then b else a
  }

  /**
   * `v?.[keys[0]] ?? v?.[keys[1]] ?? ... ?? v?.[keys[n-1]]` exactly as the source spells it:
   * `??` groups to the left, so the chain over `keys` is the chain over all but the last key,
   * coalesced with the last key's value. The empty chain is `undefined`, which `??` passes over.
   */
  function LeftChain(v: Json, keys: seq<string>): Option<Json>
    decreases |keys|
  {
    if |keys| == 0 then None
    else NullishOr(LeftChain(v, keys[..|keys| - 1]), Get(v, keys[|keys| - 1]))
  }

  /**
   * The index of the element `Array.prototype.find` returns: the least index whose element
   * satisfies `p`, if any.
   */
  function FindFirst<T>(s: seq<T>, p: T -> bool): (r: Option<nat>)
    ensures r.Some? ==> r.value < |s| && p(s[r.value])
    ensures r.Some? ==> forall j :: 0 <= j < r.value ==> !p(s[j])
    ensures r.None? ==> forall j :: 0 <= j < |s| ==> !p(s[j])
  {
    if |s| == 0 then None
    else if p(s[0]) then Some(0)
    else match FindFirst(s[1..], p)
      case None => None
      case Some(i) => Some(i + 1)
  }

  /** The index of the first key of `keys` whose property in `v` is neither null nor undefined. */
  function FirstPresentKey(v: Json, keys: seq<string>): (r: Option<nat>)
    ensures r.Some? ==> r.value < |keys| && !Nullish(Get(v, keys[r.value]))
    ensures r.Some? ==> forall j :: 0 <= j < r.value ==> Nullish(Get(v, keys[j]))
    ensures r.None? ==> forall j :: 0 <= j < |keys| ==> Nullish(Get(v, keys[j]))
  {
    FindFirst(keys, k => !Nullish(Get(v, k)))
  }

  /**
   * The value of the first key of `keys` present in `v`, read as an ordered list of aliases:
   * the value is taken even when it is of an unusable type, and later aliases are then ignored.
   */
  function Coalesce(v: Json, keys: seq<string>): (r: Option<Json>)
    ensures r.None? <==> forall j :: 0 <= j < |keys| ==> Nullish(Get(v, keys[j]))
    ensures r.Some? ==> r.value != JNull
  {
    match FirstPresentKey(v, keys)
    case None => None
    case Some(i) => Get(v, keys[i])
  }

  /**
   * The chain of `??` as the source writes it, closed by `?? undefined`, picks exactly the
   * first present alias: the left-nested operator chain and the ordered alias list agree.
   */
  lemma {:induction false} ChainIsFirstPresent(v: Json, keys: seq<string>)
    ensures NullishOr(LeftChain(v, keys), None) == Coalesce(v, keys)
  {
    LeftChainPicksFirstPresent(v, keys);
  }

  lemma {:induction false} LeftChainPicksFirstPresent(v: Json, keys: seq<string>)
    ensures FirstPresentKey(v, keys).None? ==> Nullish(LeftChain(v, keys))
    ensures FirstPresentKey(v, keys).Some? ==>
              LeftChain(v, keys) == Get(v, keys[FirstPresentKey(v, keys).value])
    decreases |keys|
  {
    if |keys| > 0 {
      var init := keys[..|keys| - 1];
      LeftChainPicksFirstPresent(v, init);
      assert forall j :: 0 <= j < |init| ==> init[j] == keys[j];
      match FirstPresentKey(v, init)
      case Some(i) =>
        FirstPresentUnique(v, keys, i);
      case None =>
        if !Nullish(Get(v, keys[|keys| - 1])) {
          FirstPresentUnique(v, keys, |keys| - 1);
        }
    }
  }

  /** The first present alias is unique: any index with the characterising property is it. */
  lemma FirstPresentUnique(v: Json, keys: seq<string>, i: nat)
    requires i < |keys| && !Nullish(Get(v, keys[i]))
    requires forall j :: 0 <= j < i ==> Nullish(Get(v, keys[j]))
    ensures FirstPresentKey(v, keys) == Some(i)
  {
  }

  /**
   * Once an alias is present, the values of the aliases after it cannot influence the choice:
   * two payloads that agree up to and including the chosen alias coalesce to the same value.
   */
  lemma CoalesceIgnoresLaterKeys(v: Json, w: Json, keys: seq<string>, i: nat)
    requires FirstPresentKey(v, keys) == Some(i)
    requires forall j :: 0 <= j <= i ==> Get(w, keys[j]) == Get(v, keys[j])
    ensures Coalesce(w, keys) == Coalesce(v, keys) == Get(v, keys[i])
  {
  }

  /** Something thrown: an `Error` object with its message, or any other value. */
  datatype Thrown = ErrorObject(message: string) | OtherValue

  /** `err instanceof Error ? err.message : fallback` */
  function CaughtMessage(t: Thrown, fallback: string): (m: string)
    ensures t.ErrorObject? ==> m == t.message
    ensures t.OtherValue? ==> m == fallback
  {
    match t
    case ErrorObject(msg) => msg
    case OtherValue => fallback
  }

  /**
   * The two library parsers the normalizers call, kept abstract: `Number.parseFloat` and the
   * string form of `new Date(s)` before TimeClip (that is, `Date.parse`). Both are total.
   */
  datatype Primitives = Primitives(parseFloat: string -> Num, dateParse: string -> Num)
}

=== FILE: mood.dfy ===
/**
 * The mood mapper (`temperatureMood`): a total function from an optional temperature to
 * one of five label / colour / glow triples, chosen by fixed upper-exclusive bands.
 */
module Mood {
  import opened Wrappers

  /** The `{label, color, glow}` triple; `label` is a Dafny keyword, so the label is `caption`. */
  datatype Mood = Mood(caption: string, color: string, glow: string)

  const Loading: Mood := Mood("Daten werden geladen", "text-slate-200", "shadow-[0_0_45px_rgba(148,163,184,0.35)]")
  const Fresh: Mood := Mood("Frisch", "text-sky-200", "shadow-[0_0_45px_rgba(56,189,248,0.35)]")
  const Pleasant: Mood := Mood("Klar & angenehm", "text-emerald-200", "shadow-[0_0_45px_rgba(16,185,129,0.35)]")
  const Perfect: Mood := Mood("Perfekt", "text-amber-200", "shadow-[0_0_45px_rgba(251,191,36,0.35)]")
  const Summer: Mood := Mood("Sommerfeeling", "text-rose-200", "shadow-[0_0_45px_rgba(244,114,182,0.35)]")

  /** The moods in band order: no reading, then from coldest to warmest. */
  const Moods: seq<Mood> := [Loading, Fresh, Pleasant, Perfect, Summer]

  /** The lower bounds, in degrees Celsius, of the three warmer bands. */
  const Thresholds: seq<real> := [14.0, 18.0, 22.0]

  /** `temperatureMood`, with its comparisons in the source's order. */
  function TemperatureMood(t: Option<real>): (m: Mood)
    ensures m in Moods
    ensures m == Loading <==> t.None?
    ensures m == Fresh <==> t.Some? && t.value < 14.0
    ensures m == Pleasant <==> t.Some? && 14.0 <= t.value < 18.0
    ensures m == Perfect <==> t.Some? && 18.0 <= t.value < 22.0
    ensures m == Summer <==> t.Some? && 22.0 <= t.value
  {
    match t
    case None => Loading
    case Some(x) =>
      if x < 14.0 then Fresh
      else if x < 18.0 then Pleasant
      else if x < 22.0 then Perfect
      else Summer
  }

  /** How many of the (ascending) thresholds in `ts` a temperature has reached. */
  function Reached(ts: seq<real>, x: real): (n: nat)
    ensures n <= |ts|
  {
    if |ts| == 0 then 0 else (if ts[0] <= x then 1 else 0) + Reached(ts[1..], x)
  }

  /** A reference definition of the band: 0 without a reading, else 1 plus the thresholds reached. */
  function Band(t: Option<real>): (b: nat)
    ensures b < |Moods|
  {
    match t
    case None => 0
    case Some(x) => 1 + Reached(Thresholds, x)
  }

  /** The branch chain of `temperatureMood` and the threshold count pick the same mood. */
  lemma MoodIsBand(t: Option<real>)
    ensures TemperatureMood(t) == Moods[Band(t)]
  {
    if t.Some? {
      var x := t.value;
      assert Reached([], x) == 0;
      assert Reached([22.0], x) == (if 22.0 <= x then 1 else 0) by {
        assert [22.0][1..] == [];
      }
      assert Reached([18.0, 22.0], x) == (if 18.0 <= x then 1 else 0) + Reached([22.0], x) by {
        assert [18.0, 22.0][1..] == [22.0];
      }
      assert Reached(Thresholds, x) == (if 14.0 <= x then 1 else 0) + Reached([18.0, 22.0], x) by {
        assert Thresholds[1..] == [18.0, 22.0];
      }
    }
  }

  /** A warmer reading never reaches fewer thresholds. */
  lemma {:induction false} ReachedMonotone(ts: seq<real>, x: real, y: real)
    requires x <= y
    ensures Reached(ts, x) <= Reached(ts, y)
    decreases |ts|
  {
    if |ts| > 0 {
      ReachedMonotone(ts[1..], x, y);
    }
  }

  /** The band never decreases as the temperature rises. */
  lemma BandMonotone(x: real, y: real)
    requires x <= y
    ensures Band(Some(x)) <= Band(Some(y))
    ensures Band(Some(x)) >= 1
  {
    ReachedMonotone(Thresholds, x, y);
  }

  /** The five moods are told apart by their captions alone. */
  lemma LabelsDistinct(i: nat, j: nat)
    requires i < |Moods| && j < |Moods| && i != j
    ensures Moods[i].caption != Moods[j].caption
  {
  }
}

=== FILE: network.dfy ===
/**
 * What one `fetch` delivers to a widget, taken as an input value: the promise rejects, or
 * a response arrives with its `ok` flag and a body that `response.json()` decodes or
 * rejects. Nothing here performs I/O.
 */
module Network {
  import opened Wrappers
  import opened JsValues

  datatype Body<T> = Decoded(value: T) | Malformed(reason: Thrown)

  datatype HttpResponse<T> = Rejected(reason: Thrown) | Responded(ok: bool, body: Body<T>)

  /**
   * `const r = await fetch(..); if (!r.ok) throw new Error(notOk); await r.json()`:
   * the decoded payload, or what the sequence throws.
   */
  function Receive<T>(r: HttpResponse<T>, notOk: string): (o: Result<T, Thrown>)
    ensures o.Ok? <==> r.Responded? && r.ok && r.body.Decoded?
    ensures o.Ok? ==> o.value == r.body.value
    ensures r.Rejected? ==> o == Err(r.reason)
    ensures r.Responded? && !r.ok ==> o == Err(ErrorObject(notOk))
    ensures r.Responded? && r.ok && r.body.Malformed? ==> o == Err(r.body.reason)
  {
    match r
    case Rejected(t) => Err(t)
    case Responded(ok, body) =>
      if !ok then Err(ErrorObject(notOk))
      else match body
        case Decoded(v) => Ok(v)
        case Malformed(t) => Err(t)
  }
}

=== FILE: river_widget.dfy ===
/**
 * The river temperature widget: the state `(aare, error)` that `fetchAare` updates when a
 * fetch completes, the `active` flag its effect clears at teardown, and the text the card
 * derives from that state.
 */
module RiverWidget {
  import opened Wrappers
  import opened JsValues
  import opened JsTime
  import opened Network
  import opened Aare
  import opened Mood

  const NotResponding: string := "Aare API antwortet nicht"
  const NoTemperature: string := "Keine Temperaturdaten"
  const DataError: string := "Datenfehler"

  /** The widget's state, with the liveness flag of the effect that polls for it. */
  datatype River = River(active: bool, aare: AareData, error: Option<string>)

  /** The state right after mounting: live, no data, no error. */
  const Mounted: River := River(true, NoData, None)

  /**
   * The body of `fetchAare` up to its `active` check: the parsed record of a decoded payload,
   * or the error text its `catch` clause would show.
   */
  function FetchAare(prims: Primitives, r: HttpResponse<Json>): (o: Result<AareData, string>)
    ensures o.Ok? <==> r.Responded? && r.ok && r.body.Decoded?
    ensures o.Ok? ==> o.value == ParseAareData(prims, r.body.value)
    ensures r.Responded? && !r.ok ==> o == Err(NotResponding)
    ensures r.Rejected? ==> o == Err(CaughtMessage(r.reason, DataError))
    ensures r.Responded? && r.ok && r.body.Malformed? ==> o == Err(CaughtMessage(r.body.reason, DataError))
  {
    match Receive(r, NotResponding)
    case Ok(payload) => Ok(ParseAareData(prims, payload))
    case Err(t) => Err(CaughtMessage(t, DataError))
  }

  /**
   * A completion. While active, a parsed record replaces the data wholesale and the error
   * becomes "Keine Temperaturdaten" exactly when it has no temperature; a failure sets the
   * error and keeps the data. Once inactive, nothing changes.
   */
  function Complete(w: River, o: Result<AareData, string>): (v: River)
    ensures !w.active ==> v == w
    ensures v.active == w.active
    ensures w.active && o.Err? ==> v.aare == w.aare && v.error == Some(o.error)
    ensures w.active && o.Ok? ==> v.aare == o.value
    ensures w.active && o.Ok? ==> (v.error.Some? <==> o.value.temperature.None?)
    ensures w.active && o.Ok? && v.error.Some? ==> v.error.value == NoTemperature
  {
    if !w.active then w
    else match o
      case Ok(parsed) => w.(aare := parsed, error := if parsed.temperature.None? then Some(NoTemperature) else None)
      case Err(msg) => w.(error := Some(msg))
  }

  /** What can happen to a mounted widget: a fetch completes, or the effect is torn down. */
  datatype Event = Completed(response: HttpResponse<Json>) | TornDown

  function Step(prims: Primitives, w: River, e: Event): (v: River)
    ensures e.TornDown? ==> v == w.(active := false)
    ensures !w.active ==> v == w
  {
    match e
    case Completed(r) => Complete(w, FetchAare(prims, r))
    case TornDown => w.(active := false)
  }

  /** The state after a sequence of events, applied in order. */
  function Run(prims: Primitives, w: River, es: seq<Event>): River
    decreases |es|
  {
    if |es| == 0 then w else Run(prims, Step(prims, w, es[0]), es[1..])
  }

  /** A rejected fetch while active shows the catch clause's message and keeps the data shown so far. */
  lemma RejectionSetsErrorKeepsData(prims: Primitives, w: River, t: Thrown)
    requires w.active
    ensures var v := Step(prims, w, Completed(Rejected(t)));
      v.active && v.aare == w.aare && v.error == Some(CaughtMessage(t, DataError))
  {
  }

  /**
   * A decoded payload while active replaces the data with its parse, and the error is
   * "Keine Temperaturdaten" exactly when the parse has no temperature.
   */
  lemma DecodedPayloadReplacesData(prims: Primitives, w: River, p: Json)
    requires w.active
    ensures var v := Step(prims, w, Completed(Responded(true, Decoded(p))));
      && v.active
      && v.aare == ParseAareData(prims, p)
      && (v.error.Some? <==> TemperatureOf(prims, p).None?)
      && (v.error.Some? ==> v.error.value == NoTemperature)
  {
  }

  /** After teardown no completion, however many arrive, changes any state. */
  lemma {:induction false} TornDownIsFrozen(prims: Primitives, w: River, es: seq<Event>)
    requires !w.active
    ensures Run(prims, w, es) == w
    decreases |es|
  {
    if |es| > 0 {
      assert Step(prims, w, es[0]) == w;
      TornDownIsFrozen(prims, w, es[1..]);
    }
  }

  /**
   * What every reachable state satisfies: the data is either the initial empty record or a
   * parsed one (which has a non-nullish location), and an absent error means a temperature
   * is shown or nothing has been loaded yet.
   */
  ghost predicate Consistent(w: River) {
    && (w.aare.location.None? ==> w.aare == NoData)
    && (w.aare.location.Some? ==> w.aare.location.value != JNull)
    && (w.error.None? ==> w.aare.temperature.Some? || w.aare == NoData)
  }

  lemma StepKeepsConsistent(prims: Primitives, w: River, e: Event)
    requires Consistent(w)
    ensures Consistent(Step(prims, w, e))
  {
  }

  /** Any sequence of events keeps a consistent state consistent. */
  lemma {:induction false} RunKeepsConsistent(prims: Primitives, w: River, es: seq<Event>)
    requires Consistent(w)
    ensures Consistent(Run(prims, w, es))
    decreases |es|
  {
    if |es| > 0 {
      StepKeepsConsistent(prims, w, es[0]);
      RunKeepsConsistent(prims, Step(prims, w, es[0]), es[1..]);
    }
  }

  /** Every state reachable from mounting is consistent. */
  lemma ReachableIsConsistent(prims: Primitives, es: seq<Event>)
    ensures Consistent(Run(prims, Mounted, es))
  {
    RunKeepsConsistent(prims, Mounted, es);
  }

  /** Text on the card: a literal, or the output of an `Intl` formatter for a value. */
  datatype Text = Literal(text: string) | FormattedNumber(value: real) | FormattedTime(time: TimeValue)

  datatype RiverView = RiverView(location: Json, temperature: Text, mood: Mood, error: Option<string>, lastUpdate: Text)

  /**
   * The card's derived display: the location falls back to "Aare · Bern", the temperature
   * reads "--" without a reading, "Letztes Update" reads "gleich" without a timestamp, and
   * the error line appears only for a non-empty error.
   */
  function View(w: River): (v: RiverView)
    ensures v.location != JNull
    ensures Nullish(w.aare.location) ==> v.location == JStr(DefaultLocation)
    ensures !Nullish(w.aare.location) ==> v.location == w.aare.location.value
    ensures v.temperature == Literal("--") <==> w.aare.temperature.None?
    ensures w.aare.temperature.Some? ==> v.temperature == FormattedNumber(w.aare.temperature.value)
    ensures v.mood == TemperatureMood(w.aare.temperature)
    ensures v.lastUpdate == Literal("gleich") <==> w.aare.timestamp.None?
    ensures w.aare.timestamp.Some? ==> v.lastUpdate == FormattedTime(w.aare.timestamp.value)
    ensures v.error.Some? ==> v.error == w.error
    ensures v.error.Some? <==> w.error.Some? && w.error.value != ""
  {
    RiverView(
      NullishOr(w.aare.location, Some(JStr(DefaultLocation))).value,
      match w.aare.temperature
      case Some(t) => FormattedNumber(t)
      case None => Literal("--"),
      TemperatureMood(w.aare.temperature),
      if w.error.Some? && w.error.value != "" then w.error else None,
      match w.aare.timestamp
      case Some(ms) => FormattedTime(ms)
      case None => Literal("gleich"))
  }

  /** A server error on the first fetch leaves the temperature at "--" and shows a non-empty error. */
  lemma ServerErrorShowsPlaceholder(prims: Primitives, body: Body<Json>)
    ensures var v := View(Step(prims, Mounted, Completed(Responded(false, body))));
      v.temperature == Literal("--") && v.error == Some(NotResponding) && v.mood == Loading
  {
  }

  /**
   * The payload `{ aare: "18.3", time: "1700000000" }` shows 18.3 degrees in the "Perfekt"
   * band, the instant 1700000000000 ms, and no error.
   */
  lemma SampleFetchShowsReading(prims: Primitives)
    requires prims.parseFloat("18.3") == Finite(18.3)
    requires prims.parseFloat("1700000000") == Finite(1700000000.0)
    ensures var p := JObj(map["aare" := JStr("18.3"), "time" := JStr("1700000000")]);
      var v := View(Step(prims, Mounted, Completed(Responded(true, Decoded(p)))));
      v.temperature == FormattedNumber(18.3) && v.mood == Perfect &&
      v.lastUpdate == FormattedTime(1_700_000_000_000) && v.error.None?
  {
    SamplePayload(prims);
  }
}

=== FILE: transit.dfy ===
/**
 * The transit normalizer: how the public-transport widget turns the locations and
 * stationboard responses into a station name and a list of departures (`parseDeparture`,
 * the station-selection expression, the body of `fetchDepartures`), the configured station
 * query, and the countdown text `minutesUntil`.
 *
 * Payloads follow their declared shapes; `None` stands for a field that is missing or null,
 * the two cases `?.` and `??` treat alike.
 */
module Transit {
  import opened Wrappers
  import opened JsValues
  import opened JsTime
  import opened JsText
  import opened Network

  const DefaultStationQuery: string := "Bern"
  const MaxDepartures: nat := 6

  const StationNotLoaded: string := "ÖV-Station konnte nicht geladen werden"
  const ConnectionsNotLoaded: string := "ÖV-Verbindungen konnten nicht geladen werden"
  const TransitDataError: string := "ÖV-Datenfehler"

  /** The error thrown when the locations response yields no usable station. */
  function NoStationMessage(query: string): string {
    "Keine Station für \"" + query + "\" gefunden"
  }

  /**
   * `VITE_PT_STATION_QUERY?.trim() || "Bern"`: the configured text without surrounding
   * whitespace, or "Bern" when it is unset or blank. Never empty.
   */
  function StationQuery(configured: Option<string>): (q: string)
    ensures q != []
    ensures configured.None? || AllWhitespace(configured.value) ==> q == DefaultStationQuery
    ensures configured.Some? && !AllWhitespace(configured.value) ==> q == Trim(configured.value)
    ensures !IsWhitespace(q[0]) && !IsWhitespace(q[|q| - 1])
  {
    match configured
    case None => DefaultStationQuery
    case Some(text) => var t := Trim(text); if t == [] then DefaultStationQuery else t
  }

  datatype Coordinate = Coordinate(x: Option<real>, y: Option<real>)

  datatype ApiStation = ApiStation(id: Option<string>, name: Option<string>, coordinate: Option<Coordinate>)

  datatype Prognosis = Prognosis(departure: Option<string>, platform: Option<string>)

  datatype ApiStop = ApiStop(departure: Option<string>, platform: Option<string>, prognosis: Option<Prognosis>)

  datatype StationboardEntry = StationboardEntry(name: Option<string>, number: Option<string>, to: Option<string>, stop: Option<ApiStop>)

  datatype LocationsResponse = LocationsResponse(stations: Option<seq<ApiStation>>)

  datatype StationboardResponse = StationboardResponse(station: Option<ApiStation>, stationboard: Option<seq<StationboardEntry>>)

  /** A normalized departure: line and destination are always text, time and platform optional. */
  datatype Departure = Departure(line: string, destination: string, departure: Option<TimeValue>, platform: Option<string>)

  /** `entry.stop?.prognosis?.departure` */
  function PrognosisDeparture(e: StationboardEntry): Option<string> {
    if e.stop.Some? && e.stop.value.prognosis.Some? then e.stop.value.prognosis.value.departure else None
  }

  /** `entry.stop?.prognosis?.platform` */
  function PrognosisPlatform(e: StationboardEntry): Option<string> {
    if e.stop.Some? && e.stop.value.prognosis.Some? then e.stop.value.prognosis.value.platform else None
  }

  /** `entry.stop?.departure` */
  function ScheduledDeparture(e: StationboardEntry): Option<string> {
    if e.stop.Some? then e.stop.value.departure else None
  }

  /** `entry.stop?.platform` */
  function ScheduledPlatform(e: StationboardEntry): Option<string> {
    if e.stop.Some? then e.stop.value.platform else None
  }

  /** The departure text chosen: the live prognosis when present, else the scheduled time. */
  function DepartureRaw(e: StationboardEntry): (r: Option<string>)
    ensures PrognosisDeparture(e).Some? ==> r == PrognosisDeparture(e)
    ensures PrognosisDeparture(e).None? ==> r == ScheduledDeparture(e)
    ensures r.None? <==> PrognosisDeparture(e).None? && ScheduledDeparture(e).None?
  {
    PrognosisDeparture(e).OrElse(ScheduledDeparture(e))
  }

  /** `departureRaw ? new Date(departureRaw) : null`, then dropping an invalid date. */
  function DepartureTime(prims: Primitives, raw: Option<string>): (t: Option<TimeValue>)
    ensures t.Some? ==> raw.Some? && raw.value != ""
    ensures raw.Some? && raw.value != "" ==> t == TimeClip(prims.dateParse(raw.value))
  {
    if raw.Some? && raw.value != "" then TimeClip(prims.dateParse(raw.value)) else None
  }

  /**
   * `parseDeparture`: the line is the number, else the name, else "?"; the destination
   * falls back to "Unbekannt"; time and platform prefer the live prognosis to the schedule.
   */
  function ParseDeparture(prims: Primitives, e: StationboardEntry): (d: Departure)
    ensures e.number.Some? ==> d.line == e.number.value
    ensures e.number.None? && e.name.Some? ==> d.line == e.name.value
    ensures e.number.None? && e.name.None? ==> d.line == "?"
    ensures e.to.Some? ==> d.destination == e.to.value
    ensures e.to.None? ==> d.destination == "Unbekannt"
    ensures PrognosisDeparture(e).Some? ==> d.departure == DepartureTime(prims, PrognosisDeparture(e))
    ensures PrognosisDeparture(e).None? ==> d.departure == DepartureTime(prims, ScheduledDeparture(e))
    ensures d.platform.Some? <==> PrognosisPlatform(e).Some? || ScheduledPlatform(e).Some?
    ensures PrognosisPlatform(e).Some? ==> d.platform == PrognosisPlatform(e)
    ensures PrognosisPlatform(e).None? ==> d.platform == ScheduledPlatform(e)
  {
    Departure(
      e.number.OrElse(e.name).GetOr("?"),
      e.to.GetOr("Unbekannt"),
      DepartureTime(prims, DepartureRaw(e)),
      PrognosisPlatform(e).OrElse(ScheduledPlatform(e)))
  }

  /**
   * A departure whose prognosis carries both a time and a platform does not depend on the
   * scheduled time or platform at all.
   */
  lemma PrognosisOverridesSchedule(prims: Primitives, e: StationboardEntry, time: Option<string>, platform: Option<string>)
    requires e.stop.Some? && e.stop.value.prognosis.Some?
    requires e.stop.value.prognosis.value.departure.Some? && e.stop.value.prognosis.value.platform.Some?
    ensures ParseDeparture(prims, e.(stop := Some(e.stop.value.(departure := time, platform := platform))))
         == ParseDeparture(prims, e)
  {
  }

  /** `entries.map(parseDeparture)` */
  function ParseAll(prims: Primitives, entries: seq<StationboardEntry>): (ds: seq<Departure>)
    ensures |ds| == |entries|
    ensures forall i :: 0 <= i < |entries| ==> ds[i] == ParseDeparture(prims, entries[i])
  {
    if |entries| == 0 then [] else [ParseDeparture(prims, entries[0])] + ParseAll(prims, entries[1..])
  }

  /** `(stationboard.stationboard ?? []).map(parseDeparture)` */
  function ParseDepartures(prims: Primitives, board: Option<seq<StationboardEntry>>): (ds: seq<Departure>)
    ensures board.None? ==> ds == []
    ensures board.Some? ==> |ds| == |board.value|
    ensures board.Some? ==> forall i :: 0 <= i < |ds| ==> ds[i] == ParseDeparture(prims, board.value[i])
  {
    ParseAll(prims, board.GetOr([]))
  }

  /** Parsing keeps the upstream order: the parse of a concatenation is the concatenation of parses. */
  lemma ParseAllKeepsOrder(prims: Primitives, a: seq<StationboardEntry>, b: seq<StationboardEntry>)
    ensures ParseAll(prims, a + b) == ParseAll(prims, a) + ParseAll(prims, b)
  {
  }

  /** `Boolean(item.id)` */
  predicate HasTruthyId(st: ApiStation) {
    st.id.Some? && st.id.value != ""
  }

  /** `typeof item.coordinate?.x === "number" && typeof item.coordinate?.y === "number"` */
  predicate HasNumericCoordinates(st: ApiStation) {
    st.coordinate.Some? && st.coordinate.value.x.Some? && st.coordinate.value.y.Some?
  }

  /**
   * The index the station-selection expression picks: the first candidate with a truthy id,
   * else the first with numeric coordinates, else the first candidate.
   */
  function SelectedIndex(s: seq<ApiStation>): (r: Option<nat>)
    ensures r.None? <==> |s| == 0
    ensures r.Some? ==> r.value < |s|
    ensures (exists i :: 0 <= i < |s| && HasTruthyId(s[i])) ==>
              r.Some? && HasTruthyId(s[r.value]) && forall j :: 0 <= j < r.value ==> !HasTruthyId(s[j])
    ensures (forall i :: 0 <= i < |s| ==> !HasTruthyId(s[i])) &&
            (exists i :: 0 <= i < |s| && HasNumericCoordinates(s[i])) ==>
              r.Some? && HasNumericCoordinates(s[r.value]) &&
              forall j :: 0 <= j < r.value ==> !HasNumericCoordinates(s[j])
    ensures (forall i :: 0 <= i < |s| ==> !HasTruthyId(s[i]) && !HasNumericCoordinates(s[i])) ==>
              r.None? || r.value == 0
  {
    FindFirst(s, HasTruthyId)
      .OrElse(FindFirst(s, HasNumericCoordinates))
      .OrElse(if |s| > 0 then Some(0) else None)
  }

  /**
   * `stations?.find(has id) ?? stations?.find(has coordinates) ?? stations?.[0]`. Since
   * `find` yields an object or `undefined`, the chain on elements is the chain on indices.
   */
  function SelectStation(stations: Option<seq<ApiStation>>): (r: Option<ApiStation>)
    ensures r.None? <==> stations.None? || |stations.value| == 0
    ensures r.Some? ==> r == Some(stations.value[SelectedIndex(stations.value).value])
  {
    match stations
    case None => None
    case Some(s) =>
      match SelectedIndex(s)
      case None => None
      case Some(i) => Some(s[i])
  }

  /**
   * A candidate with a truthy id wins over every candidate before it that has none,
   * whatever coordinates those carry.
   */
  lemma FirstIdWins(s: seq<ApiStation>, i: nat)
    requires i < |s| && HasTruthyId(s[i])
    requires forall j :: 0 <= j < i ==> !HasTruthyId(s[j])
    ensures SelectStation(Some(s)) == Some(s[i])
  {
  }

  /**
   * The station for the stationboard request: the selected one when it has a truthy name;
   * otherwise the error naming the query.
   */
  function ResolveStation(query: string, locations: LocationsResponse): (r: Result<ApiStation, Thrown>)
    ensures r.Ok? <==> SelectStation(locations.stations).Some? &&
                       SelectStation(locations.stations).value.name.Some? &&
                       SelectStation(locations.stations).value.name.value != ""
    ensures r.Ok? ==> Some(r.value) == SelectStation(locations.stations)
    ensures r.Err? ==> r.error == ErrorObject(NoStationMessage(query))
  {
    match SelectStation(locations.stations)
    case Some(st) =>
      if st.name.Some? && st.name.value != "" then Ok(st) else Err(ErrorObject(NoStationMessage(query)))
    case None => Err(ErrorObject(NoStationMessage(query)))
  }

  /** `station.id ?? station.name`: the request key for a resolved station. */
  function StationboardKey(st: ApiStation): (k: string)
    requires st.name.Some?
    ensures st.id.Some? ==> k == st.id.value
    ensures st.id.None? ==> k == st.name.value
  {
    st.id.GetOr(st.name.value)
  }

  /** The station name and departures a successful poll delivers. */
  datatype Board = Board(stationName: string, departures: seq<Departure>)

  /** The two endpoints, as the responses they give for a request: the network is an input. */
  datatype Endpoints = Endpoints(
    locations: string -> HttpResponse<LocationsResponse>,
    stationboard: (string, nat) -> HttpResponse<StationboardResponse>)

  /** `stationboard.station?.name ?? station.name` with the departures of the board. */
  function BoardOf(prims: Primitives, st: ApiStation, sb: StationboardResponse): (b: Board)
    requires st.name.Some?
    ensures sb.station.Some? && sb.station.value.name.Some? ==> b.stationName == sb.station.value.name.value
    ensures !(sb.station.Some? && sb.station.value.name.Some?) ==> b.stationName == st.name.value
    ensures b.departures == ParseDepartures(prims, sb.stationboard)
  {
    var boardName := if sb.station.Some? then sb.station.value.name else None;
    Board(boardName.GetOr(st.name.value), ParseDepartures(prims, sb.stationboard))
  }

  /**
   * The body of `fetchDepartures` up to its `active` checks: the board of the resolved
   * station, or the message its `catch` clause would show.
   */
  function FetchDepartures(prims: Primitives, query: string, net: Endpoints): (r: Result<Board, string>)
    ensures net.locations(query).Responded? && !net.locations(query).ok ==> r == Err(StationNotLoaded)
    ensures net.locations(query).Rejected? ==> r == Err(CaughtMessage(net.locations(query).reason, TransitDataError))
    ensures r.Ok? ==> net.locations(query).Responded? && net.locations(query).ok && net.locations(query).body.Decoded?
    ensures r.Ok? ==> ResolveStation(query, net.locations(query).body.value).Ok?
    ensures r.Ok? ==>
              var st := ResolveStation(query, net.locations(query).body.value).value;
              var board := net.stationboard(StationboardKey(st), MaxDepartures);
              board.Responded? && board.ok && board.body.Decoded? &&
              r.value == BoardOf(prims, st, board.body.value)
    ensures var loc := net.locations(query);
      loc.Responded? && loc.ok && loc.body.Malformed? ==>
        r == Err(CaughtMessage(loc.body.reason, TransitDataError))
    ensures var loc := net.locations(query);
      loc.Responded? && loc.ok && loc.body.Decoded? && ResolveStation(query, loc.body.value).Err? ==>
        r == Err(NoStationMessage(query))
    ensures var loc := net.locations(query);
      loc.Responded? && loc.ok && loc.body.Decoded? && ResolveStation(query, loc.body.value).Ok? ==>
        var st := ResolveStation(query, loc.body.value).value;
        var board := net.stationboard(StationboardKey(st), MaxDepartures);
        && (board.Rejected? ==> r == Err(CaughtMessage(board.reason, TransitDataError)))
        && (board.Responded? && !board.ok ==> r == Err(ConnectionsNotLoaded))
        && (board.Responded? && board.ok && board.body.Malformed? ==>
              r == Err(CaughtMessage(board.body.reason, TransitDataError)))
        && (board.Responded? && board.ok && board.body.Decoded? ==> r == Ok(BoardOf(prims, st, board.body.value)))
  {
    match Receive(net.locations(query), StationNotLoaded)
    case Err(t) => Err(CaughtMessage(t, TransitDataError))
    case Ok(locations) =>
      match ResolveStation(query, locations)
      case Err(t) => Err(CaughtMessage(t, TransitDataError))
      case Ok(st) =>
        match Receive(net.stationboard(StationboardKey(st), MaxDepartures), ConnectionsNotLoaded)
        case Err(t) => Err(CaughtMessage(t, TransitDataError))
        case Ok(sb) => Ok(BoardOf(prims, st, sb))
  }

  /**
   * A poll whose locations response yields a named station and whose stationboard request,
   * keyed by that station and limited to six entries, succeeds delivers that board: its
   * station name (falling back to the resolved station's) and its departures in order.
   */
  lemma FetchDeliversBoard(prims: Primitives, query: string, net: Endpoints, locations: LocationsResponse, sb: StationboardResponse)
    requires net.locations(query) == Responded(true, Decoded(locations))
    requires ResolveStation(query, locations).Ok?
    requires net.stationboard(StationboardKey(ResolveStation(query, locations).value), MaxDepartures) == Responded(true, Decoded(sb))
    ensures FetchDepartures(prims, query, net) == Ok(BoardOf(prims, ResolveStation(query, locations).value, sb))
    ensures FetchDepartures(prims, query, net).value.departures == ParseDepartures(prims, sb.stationboard)
  {
  }

  /** A stationboard request answered with a non-ok status ends the poll with its own message. */
  lemma BoardFailureIsAnError(prims: Primitives, query: string, net: Endpoints, locations: LocationsResponse, body: Body<StationboardResponse>)
    requires net.locations(query) == Responded(true, Decoded(locations))
    requires ResolveStation(query, locations).Ok?
    requires net.stationboard(StationboardKey(ResolveStation(query, locations).value), MaxDepartures) == Responded(false, body)
    ensures FetchDepartures(prims, query, net) == Err(ConnectionsNotLoaded)
  {
  }

  /** A locations response without a usable station ends the poll with the query in the error. */
  lemma NoStationIsAnError(prims: Primitives, query: string, net: Endpoints, locations: LocationsResponse)
    requires net.locations(query) == Responded(true, Decoded(locations))
    requires SelectStation(locations.stations).None? || SelectStation(locations.stations).value.name.None?
    ensures FetchDepartures(prims, query, net) == Err(NoStationMessage(query))
  {
  }

  /**
   * `minutesUntil`: "--" without a departure time, "jetzt" when the rounded minute
   * difference is not positive (less than half a minute ahead), else "in N min".
   */
  function MinutesUntil(departure: Option<TimeValue>, now: TimeValue): (r: string)
    ensures r == "--" <==> departure.None?
    ensures r == "jetzt" <==> departure.Some? && departure.value - now < MillisPerMinute / 2
    ensures departure.Some? && MillisPerMinute / 2 <= departure.value - now ==>
              1 <= RoundedMinutes(departure.value - now) &&
              r == "in " + DecimalString(RoundedMinutes(departure.value - now)) + " min"
  {
    match departure
    case None => "--"
    case Some(t) =>
      var minutes := RoundedMinutes(t - now);
      if minutes <= 0 then "jetzt" else "in " + DecimalString(minutes) + " min"
  }

  /**
   * The countdown text can be read back: between "in " and " min" stand the decimal digits
   * of the rounded number of minutes, at least one.
   */
  lemma CountdownReadsBack(departure: TimeValue, now: TimeValue)
    requires MillisPerMinute / 2 <= departure - now
    ensures var r := MinutesUntil(Some(departure), now);
      && 7 < |r| && r[..3] == "in " && r[|r| - 4..] == " min"
      && (forall k :: 3 <= k < |r| - 4 ==> IsDigit(r[k]))
      && DecimalValue(r[3..|r| - 4]) == RoundedMinutes(departure - now) >= 1
  {
    var n := RoundedMinutes(departure - now);
    var r := MinutesUntil(Some(departure), now);
    var digits := DecimalString(n);
    assert r == "in " + digits + " min";
    assert r[3..|r| - 4] == digits;
    DecimalRoundTrip(n);
  }
}

=== FILE: transit_widget.dfy ===
/**
 * The public-transport widget's state `(stationName, departures, error, isLoading,
 * lastUpdate)` and what the start of a poll, its completion and the effect's teardown do
 * to it.
 */
module TransitWidget {
  import opened Wrappers
  import opened JsValues
  import opened JsTime
  import opened Network
  import opened Transit

  const NoDepartures: string := "Keine aktuellen Abfahrten"

  datatype TransitState = TransitState(
    active: bool,
    stationName: string,
    departures: seq<Departure>,
    error: Option<string>,
    isLoading: bool,
    lastUpdate: Option<TimeValue>)

  /** The state right after mounting: the configured query as the title, loading, nothing else. */
  function Mounted(query: string): (w: TransitState)
    ensures w.active && w.isLoading && w.stationName == query
    ensures w.departures == [] && w.error.None? && w.lastUpdate.None?
  {
    TransitState(true, query, [], None, true, None)
  }

  /**
   * `setIsLoading(true)` at the start of a poll. Teardown clears the polling interval, so no
   * poll starts afterwards: on an inactive widget a start changes nothing.
   */
  function Start(w: TransitState): (v: TransitState)
    ensures w.active ==> v == w.(isLoading := true)
    ensures !w.active ==> v == w
  {
    if w.active then w.(isLoading := true) else w
  }

  /**
   * A poll's completion at instant `now`. While active, a board replaces the station name
   * and the departures, stamps `lastUpdate`, and sets the error exactly when it has no
   * departures; a failure sets the error and clears the departures, keeping the station
   * name and `lastUpdate`; either way loading ends. Once inactive, nothing changes.
   */
  function Complete(w: TransitState, now: TimeValue, o: Result<Board, string>): (v: TransitState)
    ensures !w.active ==> v == w
    ensures v.active == w.active
    ensures w.active ==> !v.isLoading
    ensures w.active && o.Ok? ==>
              && v.stationName == o.value.stationName
              && v.departures == o.value.departures
              && v.lastUpdate == Some(now)
              && (v.error.Some? <==> o.value.departures == [])
              && (v.error.Some? ==> v.error.value == NoDepartures)
    ensures w.active && o.Err? ==>
              && v.error == Some(o.error)
              && v.departures == []
              && v.stationName == w.stationName
              && v.lastUpdate == w.lastUpdate
  {
    if !w.active then w
    else match o
      case Ok(board) =>
        w.(stationName := board.stationName,
           departures := board.departures,
           error := if |board.departures| == 0 then Some(NoDepartures) else None,
           lastUpdate := Some(now),
           isLoading := false)
      case Err(msg) =>
        w.(error := Some(msg), departures := [], isLoading := false)
  }

  /** What can happen to a mounted widget. */
  datatype Event = Started | Completed(now: TimeValue, net: Endpoints) | TornDown

  function Step(prims: Primitives, query: string, w: TransitState, e: Event): (v: TransitState)
    ensures e.TornDown? ==> v == w.(active := false)
    ensures !w.active ==> v == w
  {
    match e
    case Started => Start(w)
    case Completed(now, net) => Complete(w, now, FetchDepartures(prims, query, net))
    case TornDown => w.(active := false)
  }

  /** The state after a sequence of events, applied in order. */
  function Run(prims: Primitives, query: string, w: TransitState, es: seq<Event>): TransitState
    decreases |es|
  {
    if |es| == 0 then w else Run(prims, query, Step(prims, query, w, es[0]), es[1..])
  }

  /** A poll that starts while active sets only the loading flag. */
  lemma StartSetsLoading(prims: Primitives, query: string, w: TransitState)
    requires w.active
    ensures Step(prims, query, w, Started) == w.(isLoading := true)
  {
  }

  /**
   * A poll that completes while active, after its station resolved and its stationboard
   * request succeeded, shows that board's station name and departures, stamped with the
   * completion instant, and ends loading.
   */
  lemma SuccessfulPollShowsBoard(prims: Primitives, query: string, w: TransitState, now: TimeValue,
                                 net: Endpoints, locations: LocationsResponse, sb: StationboardResponse)
    requires w.active
    requires net.locations(query) == Responded(true, Decoded(locations))
    requires ResolveStation(query, locations).Ok?
    requires net.stationboard(StationboardKey(ResolveStation(query, locations).value), MaxDepartures) == Responded(true, Decoded(sb))
    ensures var v := Step(prims, query, w, Completed(now, net));
      && v.stationName == BoardOf(prims, ResolveStation(query, locations).value, sb).stationName
      && v.departures == ParseDepartures(prims, sb.stationboard)
      && v.lastUpdate == Some(now)
      && !v.isLoading
      && (v.error.Some? <==> v.departures == [])
  {
    FetchDeliversBoard(prims, query, net, locations, sb);
  }

  /**
   * A locations request answered with a non-ok status while active shows its message,
   * clears the departures, keeps the title and the last update time, and ends loading.
   */
  lemma StationFailureKeepsName(prims: Primitives, query: string, w: TransitState, now: TimeValue,
                                net: Endpoints, body: Body<LocationsResponse>)
    requires w.active
    requires net.locations(query) == Responded(false, body)
    ensures var v := Step(prims, query, w, Completed(now, net));
      && v.error == Some(StationNotLoaded)
      && v.departures == []
      && v.stationName == w.stationName
      && v.lastUpdate == w.lastUpdate
      && !v.isLoading
  {
  }

  /** A non-ok stationboard response while active shows its own message and clears the departures. */
  lemma BoardFailureShowsError(prims: Primitives, query: string, w: TransitState, now: TimeValue,
                               net: Endpoints, locations: LocationsResponse, body: Body<StationboardResponse>)
    requires w.active
    requires net.locations(query) == Responded(true, Decoded(locations))
    requires ResolveStation(query, locations).Ok?
    requires net.stationboard(StationboardKey(ResolveStation(query, locations).value), MaxDepartures) == Responded(false, body)
    ensures var v := Step(prims, query, w, Completed(now, net));
      v.error == Some(ConnectionsNotLoaded) && v.departures == [] && !v.isLoading
  {
  }

  /** After teardown no event, however many arrive, changes any state. */
  lemma {:induction false} TornDownIsFrozen(prims: Primitives, query: string, w: TransitState, es: seq<Event>)
    requires !w.active
    ensures Run(prims, query, w, es) == w
    decreases |es|
  {
    if |es| > 0 {
      assert Step(prims, query, w, es[0]) == w;
      TornDownIsFrozen(prims, query, w, es[1..]);
    }
  }

  /**
   * What every reachable state satisfies: until a poll succeeds the title is still the query
   * and there are no departures; and an empty list without an error message only occurs
   * before the first success.
   */
  ghost predicate Consistent(query: string, w: TransitState) {
    && (w.lastUpdate.None? ==> w.stationName == query && w.departures == [])
    && (w.error.None? && w.departures == [] ==> w.lastUpdate.None?)
  }

  lemma StepKeepsConsistent(prims: Primitives, query: string, w: TransitState, e: Event)
    requires Consistent(query, w)
    ensures Consistent(query, Step(prims, query, w, e))
  {
  }

  /** Any sequence of events keeps a consistent state consistent. */
  lemma {:induction false} RunKeepsConsistent(prims: Primitives, query: string, w: TransitState, es: seq<Event>)
    requires Consistent(query, w)
    ensures Consistent(query, Run(prims, query, w, es))
    decreases |es|
  {
    if |es| > 0 {
      StepKeepsConsistent(prims, query, w, es[0]);
      RunKeepsConsistent(prims, query, Step(prims, query, w, es[0]), es[1..]);
    }
  }

  /** Every state reachable from mounting is consistent. */
  lemma ReachableIsConsistent(prims: Primitives, query: string, es: seq<Event>)
    ensures Consistent(query, Run(prims, query, Mounted(query), es))
  {
    RunKeepsConsistent(prims, query, Mounted(query), es);
  }
}

=== FILE: wrappers.dfy ===
/** Optional values and results with an error, shared by every module of the model. */
module Wrappers {

  /** `None` stands for JavaScript's `undefined` (and, where the source treats them alike, `null`). */
  datatype Option<+T> = None | Some(value: T) {

    /** The wrapped value, or `default` when there is none. */
    function GetOr(default: T): T {
      match this
      case Some(v) => v
      case None => default
    }

    /** `this ?? other` for a typed value: this one when present, else `other`. */
    function OrElse(other: Option<T>): Option<T> {
      if Some? then this else other
    }
  }

  /** The outcome of a step that can throw: a value, or what was thrown. */
  datatype Result<+T, +E> = Ok(value: T) | Err(error: E)
}
